=== FILE: README.md ===
# Generic repository and unit of work, modelled in Dafny

This project models the data-access core of a small FastAPI/SQLModel CRUD
backend:

- a **generic repository**: typed lookups by id, bulk lookup by ids, paginated
  listing, time-window queries, upsert and delete, for any entity with an
  integer `id` and a `created_at` timestamp;
- its **`Example` specialisation**, which adds lookup by name;
- the **unit of work**. It owns one database session, builds its repositories
  on that session, and makes changes durable only on `commit`. Leaving its
  `with` block always rolls back.

The database is not modelled as SQL. One table is an immutable
`map<int, Entity<F>>` from primary key to row. Every `SELECT` the repository
builds (`WHERE`, `IN`, `ORDER BY`, `DESC`, `LIMIT`, `OFFSET`) is written as
filtering, sorting and slicing of sequences. The unit of work is a pair of
tables: `committed` is the durable state, and `working` is what the open
transaction sees, its own writes included. The body of a `with` block is a
list of calls (`Command`); `Scope` runs it the way `get_unit_of_work` and
`__exit__` do.

Files:

- `wrappers.dfy`: `Option`, `Result`.
- `models.dfy`: `Entity<F>`, `Table<F>` and the primary-key invariant `Valid`, plus the `Example` entity.
- `listing.dfy`: ascending-id listing, `WHERE` filtering, newest-first ordering, `LIMIT`/`OFFSET`.
- `generic_repository.dfy`: `GenericRepository`.
- `example_repository.dfy`: `ExampleRepository`.
- `unit_of_work.dfy`: `UnitOfWork`, `get_unit_of_work`.

How the model reads the code where Python or the database decides something:

- `find_by_ids` takes a list of ids. The model takes a `seq<int>`. `IN`
  matches each row at most once, so a repeated id changes nothing.
- `upsert` calls `session.add`, `flush` and `refresh`. The model writes the
  record under the id it carries, or under a new id when it has none; what
  the database does instead for a new record with a used id is under "Left out".
- `created_at` is set when a record is built (`default_factory`), not by the
  store. `upsert` hands back the record's own timestamp.
- `.limit(l).offset(o)` means `OFFSET` first, then `LIMIT`, whatever the call
  order. `None` means no bound. `Some(0)` as a limit gives an empty page; it
  never means "unbounded".
- The database assigns new ids. The model's rule (`NextId`) is one past the
  largest id in use, and never below 1, so a new id is larger than every id in
  use. `Upsert` and `UpsertAll` promise less: the id is positive and not
  already used, and records without an id in one batch get different ids.

## Model

| member | source | states |
|---|---|---|
| Models.NewExample | app/db/models/base/__init__.py:8-9 | a newly built record has no id yet and carries its creation instant and its name |
| Models.StoredUnderOwnId | app/db/models/base/__init__.py:8 | under the primary-key invariant, every stored record carries an id and is found again under that id |
| Listing.ListById | app/db/repositories/__init__.py:52-54 | `ORDER BY id` lists every row of the table exactly once, ids strictly ascending, and the row at position i has exactly i smaller ids in the table |
| Listing.Filter | app/db/repositories/__init__.py:44 | a `WHERE` clause keeps exactly the rows satisfying the condition |
| Listing.FilterCounts | app/db/repositories/__init__.py:44 | a `WHERE` clause keeps every occurrence of a matching row and drops every non-matching one |
| Listing.FilterKeepsIdsAscending | app/db/repositories/__init__.py:42-46 | filtering an ascending-id listing leaves it ascending by id |
| Listing.SortNewestFirst | app/db/repositories/__init__.py:72 | `ORDER BY created_at DESC` yields a permutation of its input whose timestamps never increase |
| Listing.Page | app/db/repositories/__init__.py:55-56 | `LIMIT`/`OFFSET` returns at most `limit` rows; they are the rows after the first `offset`, in order, with the exact count given |
| GenericRepository.GetById | app/db/repositories/__init__.py:23-32 | fails with a 404 `"<Model> with id <id> not found"` exactly when no stored record has that id; otherwise returns the stored record with that id |
| GenericRepository.FindById | app/db/repositories/__init__.py:34-37 | returns None exactly when no stored record has that id, otherwise that record; it never errors |
| GenericRepository.GetAgreesWithFind | app/db/repositories/__init__.py:23-37 | `get_by_id` raises exactly where `find_by_id` gives None, and otherwise returns the same record |
| GenericRepository.FindByIds | app/db/repositories/__init__.py:39-47 | returns exactly the stored records whose id was requested, strictly ascending by id (so each once); requested ids with no row are skipped |
| GenericRepository.All | app/db/repositories/__init__.py:49-58 | returns the rows ranked offset, offset+1, ... by ascending id; the count is min(limit, rows left after the offset) |
| GenericRepository.NewestFirstWhere | app/db/repositories/__init__.py:68-76 | a time-window query returns only stored rows meeting its condition, newest first, at most `limit` of them; unpaged, each matching row exactly once |
| GenericRepository.AllCreatedAfter | app/db/repositories/__init__.py:60-76 | only rows created strictly after the instant, newest first, at most `limit`; unpaged, every such row exactly once |
| GenericRepository.AllCreatedBefore | app/db/repositories/__init__.py:78-94 | only rows created strictly before the instant, newest first, at most `limit`; unpaged, every such row exactly once |
| GenericRepository.AllCreatedBetween | app/db/repositories/__init__.py:96-114 | only rows created strictly between the two instants, newest first, at most `limit`; unpaged, every such row exactly once |
| GenericRepository.WindowsArePagesOfFullResult | app/db/repositories/__init__.py:60-114 | each paged time-window result is the `LIMIT`/`OFFSET` slice of the same query unpaged; with tied timestamps this rests on the model's id tie-break (see "Left out") |
| GenericRepository.NewestFirstWhereDetermined | app/db/repositories/__init__.py:68-76 | when no two matching rows share a timestamp, the unpaged time-window result is the only list that is newest first and holds each matching row once |
| Listing.NewestFirstDetermined | app/db/repositories/__init__.py:72 | two newest-first lists with the same rows and no shared timestamp are equal: `ORDER BY created_at DESC` then fixes the order |
| GenericRepository.BetweenIsIntersection | app/db/repositories/__init__.py:105-109 | unpaged, a row is in the between-window exactly when it is in both the after-window and the before-window |
| GenericRepository.BetweenExcludesBothBounds | app/db/repositories/__init__.py:108-109 | for three rows created at t1 < t2 < t3, the window (t1, t3) is exactly the t2 row: both bounds are exclusive |
| GenericRepository.NextId | app/db/models/base/__init__.py:8 | the model's id rule: the id given to a new row is positive and larger than every id in use |
| GenericRepository.Upsert | app/db/repositories/__init__.py:116-122 | returns the record with the same fields and timestamp and an id (its own, or a fresh positive one); afterwards the record is stored under that id and every other row is unchanged |
| GenericRepository.UpsertAll | app/db/repositories/__init__.py:124-131 | returns one saved copy per record, in the same order, each with the same fields and timestamp and an id; records without an id get fresh positive ids, all different from each other |
| GenericRepository.UpsertAllKeys | app/db/repositories/__init__.py:124-131 | after `upsert_all`, every saved id is present, existing rows stay, and every new key is the id of a saved record |
| GenericRepository.UpsertAllFrame | app/db/repositories/__init__.py:124-131 | after `upsert_all`, every row whose id no saved record carries is present and unchanged |
| GenericRepository.UpsertAllRetrievable | app/db/repositories/__init__.py:124-131 | if every explicit id names an existing row and none repeats, each returned record is stored under its id |
| GenericRepository.Delete | app/db/repositories/__init__.py:133-139 | afterwards no row has that id; every other row is unchanged; an absent id leaves the table as it was |
| GenericRepository.DeleteIdempotent | app/db/repositories/__init__.py:133-139 | deleting twice equals deleting once, and `find_by_id` then finds nothing |
| ExampleRepository.New | app/db/repositories/example.py:7-9 | the repository is bound to the `Example` model, so its messages name `Example` |
| ExampleRepository.NewExampleIsInserted | app/db/repositories/__init__.py:116-122 | upserting a freshly built `Example` stores it under a new positive id unused before, with its name and timestamp kept |
| ExampleRepository.MissNamesExample | app/db/repositories/example.py:8-9 | the repository is bound to the `Example` class, so a miss is a 404 whose message names `Example` and the id |
| ExampleRepository.MissingSevenMessage | app/db/repositories/__init__.py:29-32 | a missing row 7 gives the message "Example with id 7 not found" |
| ExampleRepository.FindByName | app/db/repositories/example.py:11-13 | every returned row is stored and has the name; every stored row with the name is returned exactly once; order is not promised (stated as a multiset) |
| ExampleRepository.FindByNameSelectsMatches | app/db/repositories/example.py:12-13 | with stored names "a", "b", "a", looking up "a" returns exactly the two "a" rows |
| UnitOfWork.OpenSession | app/db/__init__.py:13-15 | a new session reads the durable state and has nothing pending |
| UnitOfWork.New | app/db/unit_of_work.py:11-13 | the unit of work keeps the session it is given, and its `examples` repository is the `Example`-bound repository |
| UnitOfWork.Enter | app/db/unit_of_work.py:15-16 | the `with` target is the unit of work itself, with the same session and repository |
| UnitOfWork.StartMissNamesExample | app/db/unit_of_work.py:11-13 | the acquired unit of work's `examples` repository reports a missing id as a 404 naming `Example` and the id |
| UnitOfWork.Start | app/db/unit_of_work.py:33-35 | acquiring a unit of work opens it on the durable state with nothing pending |
| UnitOfWork.Commit | app/db/unit_of_work.py:26-27 | every pending change becomes durable: committed := working |
| UnitOfWork.Rollback | app/db/unit_of_work.py:29-30 | every pending change is discarded (working := committed), and the durable state is untouched |
| UnitOfWork.RollbackIdempotent | app/db/unit_of_work.py:29-30 | rolling back twice equals rolling back once; rolling back right after a commit keeps what was committed |
| UnitOfWork.Exit | app/db/unit_of_work.py:18-24 | leaving the block rolls back whether or not something was raised, and returns a false value, so the error is never suppressed |
| UnitOfWork.Upsert | app/db/unit_of_work.py:11-13 | an upsert through `uow.examples` is visible to `find_by_id` in the same unit of work before commit, and is not yet durable |
| UnitOfWork.Step | app/db/unit_of_work.py:11-30 | only `commit` changes the durable state; a call fails exactly when it raises, or when it is `get_by_id` of a missing id |
| UnitOfWork.Scope | app/db/unit_of_work.py:33-35 | the caller sees exactly the error the block raised, or none (`__exit__` never suppresses), and the database still satisfies the primary-key invariant |
| UnitOfWork.RunWithoutCommitKeepsDurable | app/db/unit_of_work.py:26-30 | a sequence of calls with no commit leaves the durable state unchanged, however it ends |
| UnitOfWork.RunAppend | app/db/unit_of_work.py:33-35 | running two blocks of calls in a row is running their concatenation; an error in the first stops the second |
| UnitOfWork.ScopeWithoutCommitKeepsStore | app/db/unit_of_work.py:18-24 | rollback by default: a block that never commits leaves the database exactly as it was at acquisition |
| UnitOfWork.ScopeKeepsLastCommit | app/db/unit_of_work.py:24-30 | after commit and then exit, the committed changes survive; only calls after the last commit are discarded |
| UnitOfWork.ScopePropagatesFailure | app/db/unit_of_work.py:18-24 | an error raised in the block reaches the caller unchanged; later calls never run; the database keeps what was committed before the error |
| UnitOfWork.UncommittedInsertIsDiscarded | app/db/unit_of_work.py:33-35 | after an upsert without commit, the database is unchanged, and a fresh unit of work does not find the row |
| UnitOfWork.CommittedInsertSurvives | app/db/unit_of_work.py:26-27 | after an upsert then commit, a fresh unit of work finds the row under the id it was given |

## Left out

- Database engine, sessions and settings (`app/db/__init__.py`, `app/__init__.py`): the durable state is a parameter of `UnitOfWork.Start`, and the session is the `(committed, working)` pair.
- Admin authentication and admin views (`app/db/admin/`): outside this core. The login compares a password against Python's built-in `hash()`, which is not a password-verification scheme.
- HTTP routing and app bootstrap (`app/routers/`, `app/main.py`), `Example.to_response` and the response schemas: framework wiring and serialisation.
- SQL translation, `flush` and `refresh`. The saved copy is exactly what was written, with no server-side defaults or triggers.
- Store failures such as constraint violations or lost connections. They appear only as `RaiseError` in a block. A commit the store rejects is a `RaiseError` in place of `CallCommit`.
- Isolation between concurrent units of work, and concurrency in general: each unit of work is run on its own.
- `datetime` values become integers. Only their order is used.
- Negative `limit` or `offset`: the code passes them to the database. The model takes `Option<nat>`.
- Rows with equal `created_at`: the model lists them by ascending id. The database leaves their order open, so the contracts of the time-window queries promise only non-increasing timestamps. `GenericRepository.NewestFirstWhereDetermined` shows that when no two matching rows share a timestamp, that promise fixes the unpaged result completely.
- GenericRepository.WindowsArePagesOfFullResult: holds for the program only when no two matching rows share a `created_at`. With tied timestamps the database may order the tied rows differently for different `LIMIT`/`OFFSET` values, so real pages may repeat or skip rows; the lemma relies on the model's fixed id tie-break.
- Database-specific id allocation. A PostgreSQL sequence, for instance, does not rewind on rollback and does not move past ids inserted explicitly, so it need not follow `NextId`'s "larger than every id" rule; where it hands out an id already in use, the database raises an error the model does not have.
- GenericRepository.Upsert: in the model, a newly built record whose id already names a row overwrites that row. The database issues an `INSERT` for such a record and the primary key rejects it; only a record already loaded in the session is written as an `UPDATE`.
- Records are values, with no object identity and no change tracking. `add_all` adds the same object only once, where the model's `UpsertAll` saves each occurrence (two occurrences of one id-less record become two rows). Changing a row returned by `get_by_id` or `find_by_id` is written at the next flush or `commit` without any `upsert`; `Command` has no call for this.
- UpsertAllRetrievable: assumes every explicit id names an existing row and no id repeats. When two records in one batch share an id, the model lets the later one win; the library raises an error at flush instead.
- ExampleRepository.FindByName: names are compared as exact character sequences. The database compares `Example.name == name` under the column's collation, so a case- or accent-insensitive collation (MySQL's default `utf8mb4_0900_ai_ci`, for instance) also returns rows named "A" or "á" for "a", and a PAD SPACE collation ignores trailing spaces. The model matches the exact comparison of the SQLite and PostgreSQL defaults.
- GenericRepository.GetById, GenericRepository.FindById, GenericRepository.Delete: ids are unbounded integers in the model, while the `id` column has the database's integer range. An id outside that range (above 2^63 - 1 on SQLite, say) makes the driver raise an error when binding it, not `NoResultFound`, so `get_by_id`, `find_by_id` and `delete` raise that error instead of reporting a miss. `GetById`'s 404 and `FindById`'s `None` are promised only for ids in range.
- Read-only calls other than `get_by_id` are not commands in a block. They are pure functions of the working table (`FindById`, `FindByIds`, `All`, the time windows, `FindByName`), so none of them can change the store.
- The unit of work exposes one repository, `examples`, because the source has only the one. Other entity types would share the same session in the same way.

=== FILE: example_repository.dfy ===
/**
  The repository of `Example` rows: the generic operations bound to the
  `Example` class, plus lookup by name.
 */
module ExampleRepository {
  import opened Wrappers
  import opened Models
  import opened Listing
  import GenericRepository

  /** `ExampleRepository(session)`: the generic repository, bound to the `Example` class. */
  function New(): (r: GenericRepository.Repository)
    ensures r.modelName == "Example"
  {
    GenericRepository.Repository("Example")
  }

  /** A miss through the `Example` repository is a 404 whose message names the class and the id. */
  lemma MissNamesExample(t: Table<ExampleFields>, id: int)
    requires Valid(t)
    requires id !in t
    ensures GenericRepository.GetById(New(), t, id)
            == Err(GenericRepository.HttpException(404, "Example with id " + GenericRepository.Decimal(id) + " not found"))
  {
    assert "Example" + " with id " == "Example with id ";
  }

  /** For instance, a missing row 7 gives "Example with id 7 not found". */
  lemma MissingSevenMessage()
    ensures GenericRepository.NotFound(New(), 7).detail == "Example with id 7 not found"
  {
    assert GenericRepository.Decimal(7) == "7";
    assert "Example" + " with id " + "7" + " not found" == "Example with id 7 not found";
  }

  /** A freshly built `Example` is inserted under a new positive id, keeping its name and timestamp. */
  lemma NewExampleIsInserted(t: Table<ExampleFields>, name: string, now: int)
    requires Valid(t)
    ensures var (t', saved) := GenericRepository.Upsert(t, NewExample(name, now));
            && saved.id.Some? && saved.id.value > 0 && saved.id.value !in t
            && saved.createdAt == now && saved.fields.name == name
            && saved.id.value in t' && t'[saved.id.value] == saved
  {
  }

  /** `WHERE name = name` */
  function NameIs(name: string): Example -> bool {
    (e: Example) => e.fields.name == name
  }

  /**
    `find_by_name`: every stored `Example` with that name, each exactly once.
    No `ORDER BY` is applied, so only the multiset of rows is promised.
   */
  function FindByName(t: Table<ExampleFields>, name: string): (r: seq<Example>)
    requires Valid(t)
    ensures forall e | e in r :: e in t.Values && e.fields.name == name
    ensures forall e :: multiset(r)[e] == if e in t.Values && e.fields.name == name then 1 else 0
  {
    var listing := ListById(t);
    FilterCounts(listing, NameIs(name));
    AscendingCountsOnce(listing);
    Filter(listing, NameIs(name))
  }

  /** Of two rows named `n` and one named otherwise, the rows named `n` are exactly the two. */
  lemma TwoOfThree(r: seq<Example>, values: set<Example>, n: string, x: Example, y: Example, z: Example)
    requires values == {x, y, z}
    requires x.fields.name == n && z.fields.name == n && y.fields.name != n
    requires x != z
    requires forall e :: multiset(r)[e] == if e in values && e.fields.name == n then 1 else 0
    ensures multiset(r) == multiset{x, z}
  {
    forall e
      ensures multiset(r)[e] == multiset{x, z}[e]
    {
      if e in values && e.fields.name == n {
        assert e == x || e == z;
      }
    }
  }

  /** Stored names "a", "b", "a": `find_by_name("a")` returns exactly the two rows named "a". */
  lemma FindByNameSelectsMatches(t: Table<ExampleFields>, n: string, x: Example, y: Example, z: Example)
    requires Valid(t)
    requires t.Values == {x, y, z}
    requires x.fields.name == n && z.fields.name == n && y.fields.name != n
    requires x != z
    ensures multiset(FindByName(t, n)) == multiset{x, z}
  {
    TwoOfThree(FindByName(t, n), t.Values, n, x, y, z);
  }
}

=== FILE: generic_repository.dfy ===
/**
  CRUD over one entity type. Each operation is stated over the table as the
  open transaction sees it; the queries are pure functions of that table, and
  the writes return the table as it is after the write.
 */
module GenericRepository {
  import opened Wrappers
  import opened Models
  import opened Listing

  /** The web framework's HTTP error, raised out of the repository. */
  datatype HttpException = HttpException(statusCode: int, detail: string)

  /** A repository bound to one entity class; `modelName` is that class's name. */
  datatype Repository = Repository(modelName: string)

  function DigitChar(d: nat): char
    requires d < 10
  {
    "0123456789"[d]
  }

  /** Decimal digits of a natural number, most significant first. */
  function Digits(n: nat): string
    decreases n
  {
    if n < 10 then [DigitChar(n)] else Digits(n / 10) + [DigitChar(n % 10)]
  }

  /** How an integer is written when formatted into a message. */
  function Decimal(n: int): string {
    if n < 0 then "-" + Digits(-n) else Digits(n)
  }

  /** The error `get_by_id` raises for a missing row. */
  function NotFound(repo: Repository, id: int): HttpException {
    HttpException(404, repo.modelName + " with id " + Decimal(id) + " not found")
  }

  /** `get_by_id`: the row with that id, or a 404 when there is none. */
  function GetById<F(==,!new)>(repo: Repository, t: Table<F>, id: int): (r: Result<Entity<F>, HttpException>)
    requires Valid(t)
    ensures r.Err? <==> forall e | e in t.Values :: e.id != Some(id)
    ensures r.Ok? ==> r.value in t.Values && r.value.id == Some(id)
    ensures r.Err? ==> r.error.statusCode == 404 && r.error == NotFound(repo, id)
  {
    StoredUnderOwnId(t);
    if id in t then Ok(t[id]) else Err(NotFound(repo, id))
  }

  /** `find_by_id`: the row with that id, or `None`; a miss is not an error. */
  function FindById<F(==,!new)>(t: Table<F>, id: int): (r: Option<Entity<F>>)
    requires Valid(t)
    ensures r.None? <==> forall e | e in t.Values :: e.id != Some(id)
    ensures r.Some? ==> r.value in t.Values && r.value.id == Some(id)
  {
    StoredUnderOwnId(t);
    if id in t then Some(t[id]) else None
  }

  /** The two lookups agree: `get_by_id` fails exactly where `find_by_id` finds nothing. */
  lemma GetAgreesWithFind<F(!new)>(repo: Repository, t: Table<F>, id: int)
    requires Valid(t)
    ensures FindById(t, id).None? ==> GetById(repo, t, id) == Err(NotFound(repo, id))
    ensures FindById(t, id).Some? ==> GetById(repo, t, id) == Ok(FindById(t, id).value)
  {
  }

  /** `WHERE id IN ids` */
  function IdIn<F>(ids: seq<int>): Entity<F> -> bool {
    (e: Entity<F>) => e.id.Some? && e.id.value in ids
  }

  /** `find_by_ids`: the stored rows whose id was asked for, ascending by id; unmatched ids are skipped. */
  function FindByIds<F(==,!new)>(t: Table<F>, ids: seq<int>): (r: seq<Entity<F>>)
    requires Valid(t)
    ensures IdsAscending(r)
    ensures forall e :: e in r <==> e in t.Values && e.id.Some? && e.id.value in ids
    ensures forall k | k in ids && k in t :: t[k] in r
  {
    var listing := ListById(t);
    FilterKeepsIdsAscending(listing, IdIn<F>(ids));
    Filter(listing, IdIn<F>(ids))
  }

  /** `all`: the rows ranked `offset`, `offset + 1`, ... by ascending id, at most `limit` of them. */
  function All<F(==,!new)>(t: Table<F>, limit: Option<nat>, offset: Option<nat>): (r: seq<Entity<F>>)
    requires Valid(t)
    ensures limit.Some? ==> |r| <= limit.value
    ensures |r| == if limit.Some? && limit.value < |t.Keys| - Skipped(offset, |t.Keys|) then limit.value
                   else |t.Keys| - Skipped(offset, |t.Keys|)
    ensures forall i | 0 <= i < |r| ::
              r[i] in t.Values && r[i].id.Some? && Rank(t.Keys, r[i].id.value) == Skipped(offset, |t.Keys|) + i
  {
    Page(ListById(t), limit, offset)
  }

  /** Slicing never adds rows or reorders them. */
  lemma PageKeepsOrder<F>(xs: seq<Entity<F>>, limit: Option<nat>, offset: Option<nat>)
    ensures NewestFirst(xs) ==> NewestFirst(Page(xs, limit, offset))
    ensures forall e | e in Page(xs, limit, offset) :: e in xs
  {
    var r := Page(xs, limit, offset);
    var s := Skipped(offset, |xs|);
    forall e | e in r ensures e in xs {
      var i :| 0 <= i < |r| && r[i] == e;
      assert xs[s + i] == e;
    }
  }

  /** Without `LIMIT` or `OFFSET`, the page is the whole result. */
  lemma PageUnbounded<T>(xs: seq<T>)
    ensures Page(xs, None, None) == xs
  {
  }

  /** `WHERE p ORDER BY created_at DESC LIMIT .. OFFSET ..`, the shape of every time-window query. */
  function NewestFirstWhere<F(==,!new)>(t: Table<F>, p: Entity<F> -> bool, limit: Option<nat>, offset: Option<nat>): (r: seq<Entity<F>>)
    requires Valid(t)
    ensures NewestFirst(r)
    ensures forall e | e in r :: e in t.Values && p(e)
    ensures limit.Some? ==> |r| <= limit.value
    ensures limit.None? && offset.None? ==>
              forall e :: multiset(r)[e] == if e in t.Values && p(e) then 1 else 0
  {
    var listing := ListById(t);
    var sorted := SortNewestFirst(Filter(listing, p));
    PageKeepsOrder(sorted, limit, offset);
    FilterCounts(listing, p);
    AscendingCountsOnce(listing);
    PageUnbounded(sorted);
    Page(sorted, limit, offset)
  }

  /**
    When no two matching rows share a timestamp, the unpaged query result is the
    only list that holds each matching row once and is newest first: it does not
    depend on how ties would be ordered.
   */
  lemma NewestFirstWhereDetermined<F(!new)>(t: Table<F>, p: Entity<F> -> bool, r: seq<Entity<F>>)
    requires Valid(t)
    requires forall a, b | a in t.Values && b in t.Values && p(a) && p(b) && a.createdAt == b.createdAt :: a == b
    requires NewestFirst(r)
    requires forall e :: multiset(r)[e] == if e in t.Values && p(e) then 1 else 0
    ensures r == NewestFirstWhere(t, p, None, None)
  {
    var s := NewestFirstWhere(t, p, None, None);
    OnceWithDistinctTimes(s, t.Values, p);
    assert multiset(s) == multiset(r);
    NewestFirstDetermined(s, r);
  }

  /** A list holding each matching row once, where matching rows never share a timestamp, has distinct timestamps. */
  lemma OnceWithDistinctTimes<F(!new)>(s: seq<Entity<F>>, values: set<Entity<F>>, p: Entity<F> -> bool)
    requires forall a, b | a in values && b in values && p(a) && p(b) && a.createdAt == b.createdAt :: a == b
    requires forall e :: multiset(s)[e] == if e in values && p(e) then 1 else 0
    ensures DistinctTimes(s)
  {
    forall i, j | 0 <= i < j < |s| ensures s[i].createdAt != s[j].createdAt {
      AtMostOnceDistinct(s, i, j);
      assert s[i] in multiset(s) && s[j] in multiset(s);
    }
  }

  /** `WHERE created_at > after` */
  function CreatedAfter<F>(after: int): Entity<F> -> bool {
    (e: Entity<F>) => e.createdAt > after
  }

  /** `WHERE created_at < before` */
  function CreatedBefore<F>(before: int): Entity<F> -> bool {
    (e: Entity<F>) => e.createdAt < before
  }

  /** `WHERE created_at < before AND created_at > after` */
  function Within<F>(after: int, before: int): Entity<F> -> bool {
    (e: Entity<F>) => e.createdAt < before && e.createdAt > after
  }

  /** `all_created_after`: rows created strictly after the instant, newest first. */
  function AllCreatedAfter<F(==,!new)>(t: Table<F>, after: int, limit: Option<nat>, offset: Option<nat>): (r: seq<Entity<F>>)
    requires Valid(t)
    ensures NewestFirst(r)
    ensures forall e | e in r :: e in t.Values && e.createdAt > after
    ensures limit.Some? ==> |r| <= limit.value
    ensures limit.None? && offset.None? ==>
              forall e :: multiset(r)[e] == if e in t.Values && e.createdAt > after then 1 else 0
  {
    NewestFirstWhere(t, CreatedAfter<F>(after), limit, offset)
  }

  /** `all_created_before`: rows created strictly before the instant, newest first. */
  function AllCreatedBefore<F(==,!new)>(t: Table<F>, before: int, limit: Option<nat>, offset: Option<nat>): (r: seq<Entity<F>>)
    requires Valid(t)
    ensures NewestFirst(r)
    ensures forall e | e in r :: e in t.Values && e.createdAt < before
    ensures limit.Some? ==> |r| <= limit.value
    ensures limit.None? && offset.None? ==>
              forall e :: multiset(r)[e] == if e in t.Values && e.createdAt < before then 1 else 0
  {
    NewestFirstWhere(t, CreatedBefore<F>(before), limit, offset)
  }

  /** `all_created_between`: rows created strictly inside the window, newest first. */
  function AllCreatedBetween<F(==,!new)>(t: Table<F>, after: int, before: int, limit: Option<nat>, offset: Option<nat>): (r: seq<Entity<F>>)
    requires Valid(t)
    ensures NewestFirst(r)
    ensures forall e | e in r :: e in t.Values && after < e.createdAt < before
    ensures limit.Some? ==> |r| <= limit.value
    ensures limit.None? && offset.None? ==>
              forall e :: multiset(r)[e] == if e in t.Values && after < e.createdAt < before then 1 else 0
  {
    NewestFirstWhere(t, Within<F>(after, before), limit, offset)
  }

  /** A paged time-window query is a contiguous slice of the unpaged one. */
  lemma WindowsArePagesOfFullResult<F(!new)>(t: Table<F>, after: int, before: int, limit: Option<nat>, offset: Option<nat>)
    requires Valid(t)
    ensures AllCreatedAfter(t, after, limit, offset) == Page(AllCreatedAfter(t, after, None, None), limit, offset)
    ensures AllCreatedBefore(t, before, limit, offset) == Page(AllCreatedBefore(t, before, None, None), limit, offset)
    ensures AllCreatedBetween(t, after, before, limit, offset) == Page(AllCreatedBetween(t, after, before, None, None), limit, offset)
  {
    var listing := ListById(t);
    PageUnbounded(SortNewestFirst(Filter(listing, CreatedAfter<F>(after))));
    PageUnbounded(SortNewestFirst(Filter(listing, CreatedBefore<F>(before))));
    PageUnbounded(SortNewestFirst(Filter(listing, Within<F>(after, before))));
  }

  /** Before slicing, the window's rows are exactly the rows both half-open queries return. */
  lemma BetweenIsIntersection<F(!new)>(t: Table<F>, after: int, before: int)
    requires Valid(t)
    ensures forall e :: e in AllCreatedBetween(t, after, before, None, None) <==>
                        e in AllCreatedAfter(t, after, None, None) && e in AllCreatedBefore(t, before, None, None)
  {
    var between := AllCreatedBetween(t, after, before, None, None);
    var later := AllCreatedAfter(t, after, None, None);
    var earlier := AllCreatedBefore(t, before, None, None);
    forall e
      ensures e in between <==> e in later && e in earlier
    {
      assert e in between <==> multiset(between)[e] > 0;
      assert e in later <==> multiset(later)[e] > 0;
      assert e in earlier <==> multiset(earlier)[e] > 0;
    }
  }

  /** A list that holds `y` once and nothing else is `[y]`. */
  lemma OnlyElement<T>(r: seq<T>, y: T)
    requires forall e :: multiset(r)[e] == if e == y then 1 else 0
    ensures r == [y]
  {
    assert multiset(r) == multiset{y};
    assert |r| == |multiset(r)| == 1;
    assert r[0] in multiset(r);
  }

  /** Of three rows created at t1 < t2 < t3, only the middle one lies strictly between t1 and t3. */
  lemma MiddleOfThree<F>(r: seq<Entity<F>>, values: set<Entity<F>>, x: Entity<F>, y: Entity<F>, z: Entity<F>)
    requires y in values
    requires forall e | e in values :: e == x || e == y || e == z
    requires x.createdAt < y.createdAt < z.createdAt
    requires forall e :: multiset(r)[e] == if e in values && x.createdAt < e.createdAt < z.createdAt then 1 else 0
    ensures r == [y]
  {
    forall e
      ensures multiset(r)[e] == if e == y then 1 else 0
    {
      if e != y && e in values {
        assert e == x || e == z;
      }
    }
    OnlyElement(r, y);
  }

  /** Unpaged, the window query returns each row inside the window exactly once. */
  lemma UnpagedBetween<F(!new)>(t: Table<F>, after: int, before: int)
    requires Valid(t)
    ensures forall e :: multiset(AllCreatedBetween(t, after, before, None, None))[e]
                        == if e in t.Values && after < e.createdAt < before then 1 else 0
  {
  }

  /** Both bounds are exclusive: of rows created at t1 < t2 < t3, the window (t1, t3) holds only the middle one. */
  lemma BetweenExcludesBothBounds<F(!new)>(t: Table<F>, x: Entity<F>, y: Entity<F>, z: Entity<F>)
    requires Valid(t)
    requires x in t.Values && y in t.Values && z in t.Values
    requires forall e | e in t.Values :: e == x || e == y || e == z
    requires x.createdAt < y.createdAt < z.createdAt
    ensures AllCreatedBetween(t, x.createdAt, z.createdAt, None, None) == [y]
  {
    UnpagedBetween(t, x.createdAt, z.createdAt);
    MiddleOfThree(AllCreatedBetween(t, x.createdAt, z.createdAt, None, None), t.Values, x, y, z);
  }

  /** `upsert` hands back a copy of what it was given, with the id filled in. */
  ghost predicate Saved<F>(given: Entity<F>, saved: Entity<F>) {
    && saved.id.Some?
    && saved.createdAt == given.createdAt
    && saved.fields == given.fields
    && (given.id.Some? ==> saved.id == given.id)
  }

  /** The id the store assigns on insert: one past the largest id in use, and never below 1. */
  function NextId<F>(t: Table<F>): (k: int)
    ensures k > 0
    ensures forall j | j in t :: j < k
  {
    var ks := SortedKeys(t.Keys);
    if |ks| == 0 then 1
    else
      var top := ks[|ks| - 1];
      assert forall j | j in t :: j <= top by {
        forall j | j in t ensures j <= top {
          var i :| 0 <= i < |ks| && ks[i] == j;
          assert i == |ks| - 1 || ks[i] < top;
        }
      }
      if top < 0 then 1 else top + 1
  }

  /**
    `upsert`: a record without an id is inserted under a fresh id; a record with
    an id is written under that id. Every other row is left as it was.
   */
  function Upsert<F>(t: Table<F>, record: Entity<F>): (res: (Table<F>, Entity<F>))
    requires Valid(t)
    ensures Valid(res.0)
    ensures Saved(record, res.1)
    ensures record.id.None? ==> res.1.id.value > 0 && res.1.id.value !in t
    ensures res.1.id.value in res.0 && res.0[res.1.id.value] == res.1
    ensures forall k | k != res.1.id.value :: (k in res.0 <==> k in t) && (k in t ==> res.0[k] == t[k])
  {
    var saved := if record.id.Some? then record else record.(id := Some(NextId(t)));
    (t[saved.id.value := saved], saved)
  }

  /** The saved copies of a batch: the first record's, upserted into `t`, then the rest's, upserted into `t1`. */
  lemma SavedCons<F>(t: Table<F>, t1: Table<F>, records: seq<Entity<F>>, first: Entity<F>, rest: seq<Entity<F>>)
    requires records != [] && |rest| == |records| - 1
    requires forall k | k in t :: k in t1
    requires Saved(records[0], first) && first.id.value in t1
    requires records[0].id.None? ==> first.id.value > 0 && first.id.value !in t
    requires forall i | 0 <= i < |rest| :: Saved(records[1..][i], rest[i])
    requires forall i | 0 <= i < |rest| ::
               records[1..][i].id.None? ==> rest[i].id.Some? && rest[i].id.value > 0 && rest[i].id.value !in t1
    requires forall i, j | 0 <= i < j < |rest| && records[1..][i].id.None? && records[1..][j].id.None? ::
               rest[i].id != rest[j].id
    ensures forall i | 0 <= i < |records| :: Saved(records[i], ([first] + rest)[i])
    ensures forall i | 0 <= i < |records| ::
              records[i].id.None? ==> ([first] + rest)[i].id.Some? && ([first] + rest)[i].id.value > 0
                                      && ([first] + rest)[i].id.value !in t
    ensures forall i, j | 0 <= i < j < |records| && records[i].id.None? && records[j].id.None? ::
              ([first] + rest)[i].id != ([first] + rest)[j].id
  {
    var saved := [first] + rest;
    assert forall i | 1 <= i < |saved| :: saved[i] == rest[i - 1] && records[i] == records[1..][i - 1];
    forall i, j | 0 <= i < j < |records| && records[i].id.None? && records[j].id.None?
      ensures saved[i].id != saved[j].id
    {
      if i == 0 {
        assert rest[j - 1].id.value !in t1;
      }
    }
  }

  /** `upsert_all`: upserts the records in order and returns the saved copies in the same order. */
  function UpsertAll<F>(t: Table<F>, records: seq<Entity<F>>): (res: (Table<F>, seq<Entity<F>>))
    requires Valid(t)
    ensures Valid(res.0)
    ensures |res.1| == |records|
    ensures forall i | 0 <= i < |records| :: Saved(records[i], res.1[i])
    ensures forall i | 0 <= i < |records| ::
              records[i].id.None? ==> res.1[i].id.Some? && res.1[i].id.value > 0 && res.1[i].id.value !in t
    ensures forall i, j | 0 <= i < j < |records| && records[i].id.None? && records[j].id.None? ::
              res.1[i].id != res.1[j].id
    decreases |records|
  {
    if records == [] then (t, [])
    else
      var (t1, first) := Upsert(t, records[0]);
      var (t2, rest) := UpsertAll(t1, records[1..]);
      var saved := [first] + rest;
      SavedCons(t, t1, records, first, rest);
      (t2, saved)
  }

  /**
    The keys `upsert_all` leaves in the table: every saved record's id is
    present, existing rows stay, and every new key is the id of a saved record.
   */
  lemma {:induction false} UpsertAllKeys<F>(t: Table<F>, records: seq<Entity<F>>)
    requires Valid(t)
    ensures forall i | 0 <= i < |records| :: UpsertAll(t, records).1[i].id.value in UpsertAll(t, records).0
    ensures forall k | k in t :: k in UpsertAll(t, records).0
    ensures forall k | k in UpsertAll(t, records).0 && k !in t ::
              exists i | 0 <= i < |records| :: UpsertAll(t, records).1[i].id == Some(k)
    decreases |records|
  {
    if records != [] {
      var (t1, first) := Upsert(t, records[0]);
      UpsertAllKeys(t1, records[1..]);
      var (t2, rest) := UpsertAll(t1, records[1..]);
      var saved := [first] + rest;
      assert UpsertAll(t, records) == (t2, saved);
      assert forall i | 1 <= i < |saved| :: saved[i] == rest[i - 1];
      forall k | k in t2 && k !in t
        ensures exists i | 0 <= i < |records| :: saved[i].id == Some(k)
      {
        if k in t1 {
          assert saved[0].id == Some(k);
        } else {
          var i :| 0 <= i < |rest| && rest[i].id == Some(k);
          assert saved[i + 1].id == Some(k);
        }
      }
    }
  }

  /** `upsert_all` leaves every row it did not write exactly as it was. */
  lemma {:induction false} UpsertAllFrame<F>(t: Table<F>, records: seq<Entity<F>>)
    requires Valid(t)
    ensures forall k | k in t && (forall i | 0 <= i < |records| :: UpsertAll(t, records).1[i].id != Some(k)) ::
              k in UpsertAll(t, records).0 && UpsertAll(t, records).0[k] == t[k]
    decreases |records|
  {
    if records != [] {
      var (t1, first) := Upsert(t, records[0]);
      UpsertAllFrame(t1, records[1..]);
      var (t2, rest) := UpsertAll(t1, records[1..]);
      var saved := [first] + rest;
      assert UpsertAll(t, records) == (t2, saved);
      forall k | k in t && (forall i | 0 <= i < |records| :: saved[i].id != Some(k))
        ensures k in t2 && t2[k] == t[k]
      {
        assert saved[0].id != Some(k);
        forall i | 0 <= i < |rest| ensures rest[i].id != Some(k) {
          assert saved[i + 1] == rest[i];
        }
      }
    }
  }

  /**
    When every explicit id names an existing row and no id is given twice, each
    saved record can be found under its id after `upsert_all`.
   */
  lemma {:induction false} UpsertAllRetrievable<F>(t: Table<F>, records: seq<Entity<F>>)
    requires Valid(t)
    requires forall i | 0 <= i < |records| :: records[i].id.Some? ==> records[i].id.value in t
    requires forall i, j | 0 <= i < j < |records| :: records[i].id.Some? ==> records[j].id != records[i].id
    ensures forall i | 0 <= i < |records| ::
              UpsertAll(t, records).1[i].id.value in UpsertAll(t, records).0
              && UpsertAll(t, records).0[UpsertAll(t, records).1[i].id.value] == UpsertAll(t, records).1[i]
    decreases |records|
  {
    if records != [] {
      var (t1, first) := Upsert(t, records[0]);
      var tail := records[1..];
      assert forall i | 0 <= i < |tail| :: tail[i] == records[i + 1];
      UpsertAllRetrievable(t1, tail);
      UpsertAllFrame(t1, tail);
      var (t2, rest) := UpsertAll(t1, tail);
      var k := first.id.value;
      forall i | 0 <= i < |rest| ensures rest[i].id != Some(k) {
        if tail[i].id.Some? {
          assert records[i + 1].id == tail[i].id;
          if records[0].id.None? {
            assert k !in t;
          }
        } else {
          assert k in t1;
        }
      }
      var saved := [first] + rest;
      assert UpsertAll(t, records) == (t2, saved);
      forall i | 0 <= i < |records| ensures saved[i].id.value in t2 && t2[saved[i].id.value] == saved[i] {
        if i > 0 {
          assert saved[i] == rest[i - 1];
        }
      }
    }
  }

  /** `delete`: removes the row with that id if there is one; otherwise nothing happens. */
  function Delete<F(==,!new)>(t: Table<F>, id: int): (t': Table<F>)
    requires Valid(t)
    ensures Valid(t')
    ensures id !in t'
    ensures id !in t ==> t' == t
    ensures forall k | k != id :: (k in t' <==> k in t) && (k in t ==> t'[k] == t[k])
  {
    match FindById(t, id)
    case None => t
    case Some(_) => t - {id}
  }

  /** Deleting twice is deleting once, and afterwards the id finds nothing. */
  lemma DeleteIdempotent<F(!new)>(t: Table<F>, id: int)
    requires Valid(t)
    ensures Delete(Delete(t, id), id) == Delete(t, id)
    ensures FindById(Delete(t, id), id).None?
  {
  }
}

=== FILE: listing.dfy ===
/**
  The orderings and slices the repository's queries ask the database for:
  ascending by primary key (`ORDER BY id`), newest first
  (`ORDER BY created_at DESC`), filtering (`WHERE`) and `LIMIT`/`OFFSET`.
 */
module Listing {
  import opened Wrappers
  import opened Models

  predicate StrictlyIncreasing(s: seq<int>) {
    forall i, j | 0 <= i < j < |s| :: s[i] < s[j]
  }

  /** Every record carries an id and the ids strictly increase along the list. */
  ghost predicate IdsAscending<F>(r: seq<Entity<F>>) {
    && (forall i | 0 <= i < |r| :: r[i].id.Some?)
    && (forall i, j | 0 <= i < j < |r| :: r[i].id.Some? && r[j].id.Some? && r[i].id.value < r[j].id.value)
  }

  /** Creation timestamps never increase along the list. */
  ghost predicate NewestFirst<F>(r: seq<Entity<F>>) {
    forall i, j | 0 <= i < j < |r| :: r[i].createdAt >= r[j].createdAt
  }

  /** How many keys of `keys` sort before `k`: the 0-based position of `k` under `ORDER BY id`. */
  ghost function Rank(keys: set<int>, k: int): nat {
    |set j | j in keys && j < k|
  }

  /** A non-empty set has an element. */
  lemma Inhabited(s: set<int>)
    requires s != {}
    ensures exists x :: x in s
  {
    if forall x :: x !in s {
      assert false;
    }
  }

  /** `m` is the smallest element of `s`. */
  predicate IsLeast(m: int, s: set<int>) {
    m in s && forall y | y in s :: m <= y
  }

  lemma {:induction false} LeastExists(s: set<int>)
    requires s != {}
    ensures exists m :: IsLeast(m, s)
    decreases s
  {
    Inhabited(s);
    var x :| x in s;
    var rest := s - {x};
    if rest == {} {
      assert IsLeast(x, s) by {
        forall y | y in s ensures x <= y {
          assert y !in rest;
        }
      }
    } else {
      Inhabited(rest);
      LeastExists(rest);
      var m :| IsLeast(m, rest);
      var least := if x < m then x else m;
      assert IsLeast(least, s) by {
        forall y | y in s ensures least <= y {
          if y != x { assert y in rest; }
        }
      }
    }
  }

  /** The keys of a table in ascending order. */
  function SortedKeys(s: set<int>): (r: seq<int>)
    ensures StrictlyIncreasing(r)
    ensures forall k :: k in r <==> k in s
    ensures |r| == |s|
    decreases s
  {
    if s == {} then []
    else
      LeastExists(s);
      var m :| IsLeast(m, s);
      [m] + SortedKeys(s - {m})
  }

  lemma RankOfLeast(s: set<int>, m: int)
    requires IsLeast(m, s)
    ensures Rank(s, m) == 0
  {
    assert (set j | j in s && j < m) == {};
  }

  lemma RankAboveRemoved(s: set<int>, m: int, k: int)
    requires m in s && m < k
    ensures Rank(s, k) == Rank(s - {m}, k) + 1
  {
    var below := set j | j in s && j < k;
    var below' := set j | j in s - {m} && j < k;
    assert below == below' + {m};
    assert m !in below';
  }

  /** In a strictly increasing enumeration of a key set, the key at index `i` has rank `i`. */
  lemma {:induction false} SortedKeysRank(r: seq<int>, s: set<int>)
    requires StrictlyIncreasing(r)
    requires forall k :: k in r <==> k in s
    ensures forall i | 0 <= i < |r| :: Rank(s, r[i]) == i
    decreases |r|
  {
    if r != [] {
      var s' := s - {r[0]};
      assert forall k :: k in r[1..] <==> k in s' by {
        forall k
          ensures k in r[1..] <==> k in s'
        {
          if k in s' {
            var i :| 0 <= i < |r| && r[i] == k;
            assert r[1..][i - 1] == k;
          }
        }
      }
      SortedKeysRank(r[1..], s');
      forall i | 0 <= i < |r|
        ensures Rank(s, r[i]) == i
      {
        if i == 0 {
          RankOfLeast(s, r[0]);
        } else {
          assert r[i] == r[1..][i - 1];
          RankAboveRemoved(s, r[0], r[i]);
        }
      }
    }
  }

  /** The rows stored under the keys `ks`, in that order. */
  function RowsAt<F>(t: Table<F>, ks: seq<int>): (r: seq<Entity<F>>)
    requires forall i | 0 <= i < |ks| :: ks[i] in t
    ensures |r| == |ks|
    ensures forall i | 0 <= i < |ks| :: r[i] == t[ks[i]]
  {
    seq(|ks|, i requires 0 <= i < |ks| => t[ks[i]])
  }

  lemma RowsAtAscending<F>(t: Table<F>, ks: seq<int>)
    requires Valid(t)
    requires StrictlyIncreasing(ks)
    requires forall i | 0 <= i < |ks| :: ks[i] in t
    ensures IdsAscending(RowsAt(t, ks))
  {
    var r := RowsAt(t, ks);
    assert forall i | 0 <= i < |r| :: r[i].id == Some(ks[i]);
  }

  lemma RowsAtRank<F>(t: Table<F>, ks: seq<int>)
    requires Valid(t)
    requires forall i | 0 <= i < |ks| :: ks[i] in t
    requires forall i | 0 <= i < |ks| :: Rank(t.Keys, ks[i]) == i
    ensures forall i | 0 <= i < |RowsAt(t, ks)| ::
              RowsAt(t, ks)[i].id.Some? && RowsAt(t, ks)[i].id.value in t && Rank(t.Keys, RowsAt(t, ks)[i].id.value) == i
  {
    var r := RowsAt(t, ks);
    assert forall i | 0 <= i < |r| :: r[i].id == Some(ks[i]);
  }

  lemma RowsAtCover<F(!new)>(t: Table<F>, ks: seq<int>)
    requires forall i | 0 <= i < |ks| :: ks[i] in t
    requires forall k | k in t :: k in ks
    ensures forall e :: e in RowsAt(t, ks) <==> e in t.Values
  {
    var r := RowsAt(t, ks);
    forall e | e in t.Values ensures e in r {
      if forall k | k in t :: t[k] != e {
        assert false;
      }
      var k :| k in t && t[k] == e;
      var i :| 0 <= i < |ks| && ks[i] == k;
      assert r[i] == e;
    }
  }

  /** `SELECT ... ORDER BY id`: every row of the table, ascending by primary key. */
  function ListById<F(==,!new)>(t: Table<F>): (r: seq<Entity<F>>)
    requires Valid(t)
    ensures IdsAscending(r)
    ensures forall e :: e in r <==> e in t.Values
    ensures |r| == |t.Keys|
    ensures forall i | 0 <= i < |r| :: r[i].id.Some? && r[i].id.value in t && Rank(t.Keys, r[i].id.value) == i
  {
    var ks := SortedKeys(t.Keys);
    SortedKeysRank(ks, t.Keys);
    RowsAtAscending(t, ks);
    RowsAtCover(t, ks);
    RowsAtRank(t, ks);
    RowsAt(t, ks)
  }

  /** A list whose ids strictly increase holds each of its elements exactly once. */
  lemma {:induction false} AscendingCountsOnce<F>(r: seq<Entity<F>>)
    requires IdsAscending(r)
    ensures forall e :: multiset(r)[e] == if e in r then 1 else 0
    decreases |r|
  {
    if r != [] {
      AscendingCountsOnce(r[1..]);
      assert r == [r[0]] + r[1..];
      forall i | 0 <= i < |r[1..]| ensures r[1..][i] != r[0] {
        assert r[0].id.value < r[i + 1].id.value;
      }
    }
  }

  /** `WHERE p`: the rows satisfying `p`. */
  function Filter<T(!new)>(xs: seq<T>, p: T -> bool): (r: seq<T>)
    ensures forall x :: x in r <==> x in xs && p(x)
  {
    if xs == [] then []
    else
      assert xs == [xs[0]] + xs[1..];
      (if p(xs[0]) then [xs[0]] else []) + Filter(xs[1..], p)
  }

  /** Filtering keeps every occurrence of what it keeps and drops every occurrence of the rest. */
  lemma {:induction false} FilterCounts<T(!new)>(xs: seq<T>, p: T -> bool)
    ensures forall x :: multiset(Filter(xs, p))[x] == if p(x) then multiset(xs)[x] else 0
    decreases |xs|
  {
    if xs != [] {
      FilterCounts(xs[1..], p);
      assert xs == [xs[0]] + xs[1..];
    }
  }

  /** Filtering keeps the order of what it keeps. */
  lemma {:induction false} FilterKeepsIdsAscending<F(!new)>(xs: seq<Entity<F>>, p: Entity<F> -> bool)
    requires IdsAscending(xs)
    ensures IdsAscending(Filter(xs, p))
    decreases |xs|
  {
    if xs != [] {
      var tail := xs[1..];
      assert IdsAscending(tail) by {
        assert forall i | 0 <= i < |tail| :: tail[i] == xs[i + 1];
      }
      FilterKeepsIdsAscending(tail, p);
      var rest := Filter(tail, p);
      if p(xs[0]) {
        forall j | 0 <= j < |rest| ensures xs[0].id.value < rest[j].id.value {
          assert rest[j] in tail;
          var i :| 0 <= i < |tail| && tail[i] == rest[j];
          assert xs[i + 1] == rest[j];
        }
        var r := [xs[0]] + rest;
        assert forall i | 0 < i < |r| :: r[i] == rest[i - 1];
      }
    }
  }

  /** A newest-first list stays newest-first when its head is dropped. */
  lemma TailNewestFirst<F>(xs: seq<Entity<F>>)
    requires NewestFirst(xs) && xs != []
    ensures NewestFirst(xs[1..])
  {
    var tail := xs[1..];
    assert forall i | 0 <= i < |tail| :: tail[i] == xs[i + 1];
  }

  /** A row at least as new as every row of a newest-first list may go in front of it. */
  lemma ConsNewestFirst<F>(x: Entity<F>, rest: seq<Entity<F>>)
    requires NewestFirst(rest)
    requires forall y | y in multiset(rest) :: x.createdAt >= y.createdAt
    ensures NewestFirst([x] + rest)
  {
    var r := [x] + rest;
    assert forall i | 0 < i < |r| :: r[i] == rest[i - 1];
  }

  /** The head of a newest-first list is at least as new as every row in it. */
  lemma HeadIsNewest<F>(xs: seq<Entity<F>>)
    requires NewestFirst(xs) && xs != []
    ensures forall y | y in multiset(xs) :: xs[0].createdAt >= y.createdAt
  {
    forall y | y in multiset(xs) ensures xs[0].createdAt >= y.createdAt {
      var i :| 0 <= i < |xs| && xs[i] == y;
    }
  }

  /** Two lists with the same multiset of elements have the same members. */
  lemma SameMembers<F(!new)>(a: seq<Entity<F>>, b: seq<Entity<F>>)
    requires multiset(a) == multiset(b)
    ensures forall x :: x in a <==> x in b
  {
    forall x ensures x in a <==> x in b {
      assert x in a <==> x in multiset(a);
      assert x in b <==> x in multiset(b);
    }
  }

  /** No two rows of the list share a timestamp. */
  ghost predicate DistinctTimes<F>(a: seq<Entity<F>>) {
    forall i, j | 0 <= i < j < |a| :: a[i].createdAt != a[j].createdAt
  }

  /** A list holding each element at most once has no element at two positions. */
  lemma AtMostOnceDistinct<T>(s: seq<T>, i: int, j: int)
    requires forall e :: multiset(s)[e] <= 1
    requires 0 <= i < j < |s|
    ensures s[i] != s[j]
  {
    var x := s[i];
    assert s == s[..j] + s[j..];
    assert multiset(s)[x] == multiset(s[..j])[x] + multiset(s[j..])[x];
    assert s[..j][i] == x;
    assert multiset(s[..j])[x] >= 1;
    assert multiset(s)[x] <= 1;
    assert s[j..][0] == s[j];
    assert multiset(s[j..])[s[j]] >= 1;
  }

  /** Two newest-first lists with the same rows and no shared timestamps start with the same row. */
  lemma SameHead<F>(a: seq<Entity<F>>, b: seq<Entity<F>>)
    requires NewestFirst(a) && NewestFirst(b) && DistinctTimes(a)
    requires multiset(a) == multiset(b) && a != []
    ensures b != [] && a[0] == b[0]
  {
    assert |b| == |multiset(b)| == |a|;
    assert b[0] in multiset(a);
    var k :| 0 <= k < |a| && a[k] == b[0];
    assert a[0] in multiset(b);
    var m :| 0 <= m < |b| && b[m] == a[0];
    assert a[0].createdAt >= a[k].createdAt;
    assert b[0].createdAt >= b[m].createdAt;
    assert k == 0;
  }

  /** Dropping the head removes one occurrence of it. */
  lemma MultisetOfTail<T>(a: seq<T>)
    requires a != []
    ensures multiset(a[1..]) == multiset(a) - multiset{a[0]}
  {
    assert a == [a[0]] + a[1..];
  }

  /**
    When no two rows share a timestamp, newest-first order leaves no choice:
    two newest-first lists with the same rows are the same list.
   */
  lemma {:induction false} NewestFirstDetermined<F>(a: seq<Entity<F>>, b: seq<Entity<F>>)
    requires NewestFirst(a) && NewestFirst(b) && DistinctTimes(a)
    requires multiset(a) == multiset(b)
    ensures a == b
    decreases |a|
  {
    if a == [] {
      assert |b| == |multiset(b)| == 0;
    } else {
      SameHead(a, b);
      MultisetOfTail(a);
      MultisetOfTail(b);
      TailNewestFirst(a);
      TailNewestFirst(b);
      assert DistinctTimes(a[1..]) by {
        forall i, j | 0 <= i < j < |a[1..]| ensures a[1..][i].createdAt != a[1..][j].createdAt {
          assert a[1..][i] == a[i + 1] && a[1..][j] == a[j + 1];
        }
      }
      NewestFirstDetermined(a[1..], b[1..]);
      assert a == [a[0]] + a[1..];
      assert b == [b[0]] + b[1..];
    }
  }

  /** Inserts `e` ahead of the first row that is not newer than it. */
  function InsertNewestFirst<F>(e: Entity<F>, xs: seq<Entity<F>>): (r: seq<Entity<F>>)
    ensures multiset(r) == multiset(xs) + multiset{e}
    decreases |xs|
  {
    if xs == [] then [e]
    else if xs[0].createdAt > e.createdAt then
      assert xs == [xs[0]] + xs[1..];
      [xs[0]] + InsertNewestFirst(e, xs[1..])
    else [e] + xs
  }

  /** Inserting into a newest-first list leaves it newest-first. */
  lemma {:induction false} InsertKeepsNewestFirst<F>(e: Entity<F>, xs: seq<Entity<F>>)
    requires NewestFirst(xs)
    ensures NewestFirst(InsertNewestFirst(e, xs))
    decreases |xs|
  {
    if xs != [] {
      HeadIsNewest(xs);
      if xs[0].createdAt > e.createdAt {
        TailNewestFirst(xs);
        InsertKeepsNewestFirst(e, xs[1..]);
        assert xs == [xs[0]] + xs[1..];
        var rest := InsertNewestFirst(e, xs[1..]);
        assert forall y | y in multiset(rest) :: y == e || y in multiset(xs);
        ConsNewestFirst(xs[0], rest);
      } else {
        ConsNewestFirst(e, xs);
      }
    }
  }

  /** `ORDER BY created_at DESC`; rows with equal timestamps keep their input order. */
  function SortNewestFirst<F(!new)>(xs: seq<Entity<F>>): (r: seq<Entity<F>>)
    ensures NewestFirst(r)
    ensures multiset(r) == multiset(xs)
    ensures forall x :: x in r <==> x in xs
    decreases |xs|
  {
    if xs == [] then []
    else
      assert multiset(xs) == multiset(xs[1..]) + multiset{xs[0]} by {
        assert xs == [xs[0]] + xs[1..];
      }
      var rest := SortNewestFirst(xs[1..]);
      InsertKeepsNewestFirst(xs[0], rest);
      var r := InsertNewestFirst(xs[0], rest);
      SameMembers(r, xs);
      r
  }

  /** How many rows `OFFSET` skips from a result of `n` rows. */
  function Skipped(offset: Option<nat>, n: nat): nat {
    match offset
    case None => 0
    case Some(k) => if k < n then k else n
  }

  /** `LIMIT limit OFFSET offset`: drop the first `offset` rows, keep at most `limit`; `None` bounds nothing. */
  function Page<T>(xs: seq<T>, limit: Option<nat>, offset: Option<nat>): (r: seq<T>)
    ensures limit.Some? ==> |r| <= limit.value
    ensures |r| == if limit.Some? && limit.value < |xs| - Skipped(offset, |xs|) then limit.value
                   else |xs| - Skipped(offset, |xs|)
    ensures forall i | 0 <= i < |r| :: Skipped(offset, |xs|) + i < |xs| && r[i] == xs[Skipped(offset, |xs|) + i]
  {
    var rest := xs[Skipped(offset, |xs|)..];
    match limit
    case None => rest
    case Some(n) => if n < |rest| then rest[..n] else rest
  }
}

=== FILE: models.dfy ===
/**
  The shape every stored record has: a surrogate integer id that the store
  assigns on insert, and a creation timestamp set when the record is built.
  Timestamps are whole numbers here; only their order matters to the queries.
 */
module Models {
  import opened Wrappers

  /** A record of some entity type; `fields` holds what the concrete entity adds. */
  datatype Entity<F> = Entity(id: Option<int>, createdAt: int, fields: F)

  /** One table of the store: rows keyed by their primary key. */
  type Table<F> = map<int, Entity<F>>

  /** Primary-key invariant the store maintains: every row sits under its own id. */
  predicate Valid<F>(t: Table<F>) {
    forall k | k in t :: t[k].id == Some(k)
  }

  /** Under the primary-key invariant, every stored record can be found again under its own id. */
  lemma StoredUnderOwnId<F(!new)>(t: Table<F>)
    requires Valid(t)
    ensures forall e | e in t.Values :: e.id.Some? && e.id.value in t && t[e.id.value] == e
  {
    forall e | e in t.Values
      ensures e.id.Some? && e.id.value in t && t[e.id.value] == e
    {
      if forall k | k in t :: t[k] != e {
        assert false;
      }
      var k :| k in t && t[k] == e;
    }
  }

  /** The `Example` entity adds a name to the common fields. */
  datatype ExampleFields = ExampleFields(name: string)

  type Example = Entity<ExampleFields>

  /** Building an `Example` without an id: the id is left for the store, the timestamp is "now". */
  function NewExample(name: string, now: int): (e: Example)
    ensures e.id.None?
    ensures e.createdAt == now && e.fields.name == name
  {
    Entity(None, now, ExampleFields(name))
  }
}

=== FILE: unit_of_work.dfy ===
/**
  The transaction boundary. A unit of work owns one database session; its
  repositories read and write that session's working state, nothing becomes
  durable until `commit`, and leaving the `with` block always rolls back.
 */
module UnitOfWork {
  import opened Wrappers
  import opened Models
  import GenericRepository
  import ExampleRepository

  /** The one table the unit of work exposes a repository for. */
  type Store = Table<ExampleFields>

  /** A database session: the durable state, and the state this transaction sees (its own writes included). */
  datatype Session = Session(committed: Store, working: Store)

  /** `UnitOfWork`: the session, and the `Example` repository built on it. */
  datatype UnitOfWork = UnitOfWork(session: Session, examples: GenericRepository.Repository)

  predicate Valid(u: UnitOfWork) {
    Models.Valid(u.session.committed) && Models.Valid(u.session.working)
  }

  /** Anything raised inside the `with` block: the 404 of `get_by_id`, or any other error (a store failure among them). */
  datatype Failure = HttpError(exception: GenericRepository.HttpException) | Raised(reason: string)

  /** `get_session`: a new session on the durable state, with nothing pending. */
  function OpenSession(db: Store): (s: Session)
    ensures s.committed == db && s.working == s.committed
  {
    Session(db, db)
  }

  /** `UnitOfWork(session)`: every repository is built on the session it is given. */
  function New(s: Session): (u: UnitOfWork)
    ensures u.session == s
    ensures u.examples == ExampleRepository.New()
  {
    UnitOfWork(s, ExampleRepository.New())
  }

  /** `__enter__` hands back the unit of work itself. */
  function Enter(u: UnitOfWork): (r: UnitOfWork)
    ensures r.session == u.session && r.examples == u.examples
  {
    u
  }

  /** `get_unit_of_work`: open a session, build the unit of work on it, enter its `with` block. */
  function Start(db: Store): (u: UnitOfWork)
    requires Models.Valid(db)
    ensures Valid(u)
    ensures u.session.committed == db && u.session.working == db
  {
    Enter(New(OpenSession(db)))
  }

  /** The unit of work's `examples` repository reports a miss as a 404 naming `Example`. */
  lemma StartMissNamesExample(db: Store, id: int)
    requires Models.Valid(db)
    requires id !in db
    ensures GenericRepository.GetById(Start(db).examples, Start(db).session.working, id)
            == Err(GenericRepository.HttpException(404, "Example with id " + GenericRepository.Decimal(id) + " not found"))
  {
    ExampleRepository.MissNamesExample(db, id);
  }

  /** `commit`: every pending change becomes durable. */
  function Commit(u: UnitOfWork): (u': UnitOfWork)
    ensures u'.session.committed == u.session.working
    ensures u'.session.working == u.session.working
    ensures u'.examples == u.examples
  {
    u.(session := Session(u.session.working, u.session.working))
  }

  /** `rollback`: every pending change is discarded; the durable state is untouched. */
  function Rollback(u: UnitOfWork): (u': UnitOfWork)
    ensures u'.session.working == u.session.committed
    ensures u'.session.committed == u.session.committed
    ensures u'.examples == u.examples
  {
    u.(session := Session(u.session.committed, u.session.committed))
  }

  /**
    `__exit__`: rolls back whether or not something was raised, and returns
    `None`, a false value, so Python re-raises whatever was raised.
   */
  function Exit(u: UnitOfWork, raised: Option<Failure>): (res: (UnitOfWork, bool))
    ensures res.0.session.working == u.session.committed
    ensures res.0.session.committed == u.session.committed
    ensures !res.1
  {
    (Rollback(u), false)
  }

  /** Rolling back twice is rolling back once; rolling back right after a commit keeps what was committed. */
  lemma RollbackIdempotent(u: UnitOfWork)
    ensures Rollback(Rollback(u)) == Rollback(u)
    ensures Rollback(Commit(u)).session == Session(u.session.working, u.session.working)
  {
  }

  /** `uow.examples.upsert(record)`: written into the session, visible to it, not yet durable. */
  function Upsert(u: UnitOfWork, record: Example): (res: (UnitOfWork, Example))
    requires Valid(u)
    ensures Valid(res.0)
    ensures res.1.id.Some?
    ensures GenericRepository.FindById(res.0.session.working, res.1.id.value) == Some(res.1)
    ensures res.0.session.committed == u.session.committed
    ensures res.0.examples == u.examples
  {
    var (working, saved) := GenericRepository.Upsert(u.session.working, record);
    (u.(session := u.session.(working := working)), saved)
  }

  /** One call made inside the `with` block. */
  datatype Command =
    | CallUpsert(record: Example)
    | CallUpsertAll(records: seq<Example>)
    | CallDelete(id: int)
    | CallGetById(id: int)
    | CallCommit
    | CallRollback
    | RaiseError(failure: Failure)

  /** Performs one call; an error ends the block with that error. */
  function Step(u: UnitOfWork, c: Command): (r: Result<UnitOfWork, Failure>)
    requires Valid(u)
    ensures r.Ok? ==> Valid(r.value) && r.value.examples == u.examples
    ensures r.Ok? && !c.CallCommit? ==> r.value.session.committed == u.session.committed
    ensures c.CallCommit? ==> r == Ok(Commit(u))
    ensures r.Err? <==> c.RaiseError? || (c.CallGetById? && c.id !in u.session.working)
  {
    match c
    case CallUpsert(record) => Ok(Upsert(u, record).0)
    case CallUpsertAll(records) =>
      Ok(u.(session := u.session.(working := GenericRepository.UpsertAll(u.session.working, records).0)))
    case CallDelete(id) =>
      Ok(u.(session := u.session.(working := GenericRepository.Delete(u.session.working, id))))
    case CallGetById(id) =>
      (match GenericRepository.GetById(u.examples, u.session.working, id)
       case Ok(_) => Ok(u)
       case Err(e) => Err(HttpError(e)))
    case CallCommit => Ok(Commit(u))
    case CallRollback => Ok(Rollback(u))
    case RaiseError(failure) => Err(failure)
  }

  /** Runs the body of the `with` block up to the end or to the first error. */
  function Run(u: UnitOfWork, body: seq<Command>): (res: (UnitOfWork, Option<Failure>))
    requires Valid(u)
    ensures Valid(res.0)
    decreases |body|
  {
    if body == [] then (u, None)
    else
      match Step(u, body[0])
      case Err(f) => (u, Some(f))
      case Ok(u') => Run(u', body[1..])
  }

  /** The durable state the database is left with, and the error the caller sees. */
  function Scope(db: Store, body: seq<Command>): (res: (Store, Option<Failure>))
    requires Models.Valid(db)
    ensures Models.Valid(res.0)
    ensures res.1 == Run(Start(db), body).1
  {
    var (u, raised) := Run(Start(db), body);
    var (closed, suppressed) := Exit(u, raised);
    (closed.session.committed, if suppressed then None else raised)
  }

  predicate NoCommit(body: seq<Command>) {
    forall i | 0 <= i < |body| :: !body[i].CallCommit?
  }

  /** Without a commit, the durable state does not move, however the block ends. */
  lemma {:induction false} RunWithoutCommitKeepsDurable(u: UnitOfWork, body: seq<Command>)
    requires Valid(u)
    requires NoCommit(body)
    ensures Run(u, body).0.session.committed == u.session.committed
    decreases |body|
  {
    if body != [] {
      match Step(u, body[0])
      case Err(_) =>
      case Ok(u') =>
        assert NoCommit(body[1..]) by {
          assert forall i | 0 <= i < |body[1..]| :: body[1..][i] == body[i + 1];
        }
        RunWithoutCommitKeepsDurable(u', body[1..]);
    }
  }

  /** Running two blocks of calls in a row is running their concatenation. */
  lemma {:induction false} RunAppend(u: UnitOfWork, first: seq<Command>, second: seq<Command>)
    requires Valid(u)
    ensures Run(u, first + second) ==
            if Run(u, first).1.Some? then Run(u, first) else Run(Run(u, first).0, second)
    decreases |first|
  {
    if first == [] {
      assert first + second == second;
    } else {
      assert (first + second)[0] == first[0];
      assert (first + second)[1..] == first[1..] + second;
      match Step(u, first[0])
      case Err(_) =>
      case Ok(u') => RunAppend(u', first[1..], second);
    }
  }

  /** Rollback by default: a block that never commits leaves the database exactly as it found it. */
  lemma ScopeWithoutCommitKeepsStore(db: Store, body: seq<Command>)
    requires Models.Valid(db)
    requires NoCommit(body)
    ensures Scope(db, body).0 == db
  {
    RunWithoutCommitKeepsDurable(Start(db), body);
  }

  /** What the last commit made durable survives the exit; only the calls after it are discarded. */
  lemma ScopeKeepsLastCommit(db: Store, before: seq<Command>, after: seq<Command>)
    requires Models.Valid(db)
    requires Run(Start(db), before).1.None?
    requires NoCommit(after)
    ensures Scope(db, before + [CallCommit] + after).0 == Run(Start(db), before).0.session.working
  {
    var u := Run(Start(db), before).0;
    RunAppend(Start(db), before, [CallCommit] + after);
    assert before + [CallCommit] + after == before + ([CallCommit] + after);
    RunAppend(u, [CallCommit], after);
    assert Run(u, [CallCommit]) == (Commit(u), None);
    RunWithoutCommitKeepsDurable(Commit(u), after);
  }

  /**
    An error raised in the block reaches the caller unchanged, the calls after
    it never happen, and the durable state is what the block had committed before it.
   */
  lemma ScopePropagatesFailure(db: Store, before: seq<Command>, f: Failure, after: seq<Command>)
    requires Models.Valid(db)
    requires Run(Start(db), before).1.None?
    ensures Scope(db, before + [RaiseError(f)] + after).1 == Some(f)
    ensures Scope(db, before + [RaiseError(f)] + after).0 == Scope(db, before).0
  {
    var u := Run(Start(db), before).0;
    assert before + [RaiseError(f)] + after == before + ([RaiseError(f)] + after);
    RunAppend(Start(db), before, [RaiseError(f)] + after);
    assert ([RaiseError(f)] + after)[0] == RaiseError(f);
  }

  /** Insert without commit: a later unit of work does not find the row. */
  lemma UncommittedInsertIsDiscarded(db: Store, record: Example)
    requires Models.Valid(db)
    requires record.id.None?
    ensures Scope(db, [CallUpsert(record)]) == (db, None)
    ensures GenericRepository.FindById(Start(Scope(db, [CallUpsert(record)]).0).session.working,
                                       GenericRepository.NextId(db)).None?
  {
    ScopeWithoutCommitKeepsStore(db, [CallUpsert(record)]);
    var u := Start(db);
    assert Run(u, [CallUpsert(record)]) == Run(Step(u, CallUpsert(record)).value, []);
  }

  /** Insert then commit: a later unit of work finds the row under the id it was given. */
  lemma CommittedInsertSurvives(db: Store, record: Example)
    requires Models.Valid(db)
    requires record.id.None?
    ensures GenericRepository.FindById(Start(Scope(db, [CallUpsert(record), CallCommit]).0).session.working,
                                       GenericRepository.NextId(db))
            == Some(record.(id := Some(GenericRepository.NextId(db))))
  {
    var body := [CallUpsert(record), CallCommit];
    var u := Start(db);
    assert Run(u, [CallUpsert(record)]).1.None? by {
      assert Run(u, [CallUpsert(record)]) == Run(Step(u, CallUpsert(record)).value, []);
    }
    ScopeKeepsLastCommit(db, [CallUpsert(record)], []);
    assert [CallUpsert(record)] + [CallCommit] + [] == body;
  }
}

=== FILE: wrappers.dfy ===
/** Optional values and success-or-error results, as the repository layer returns them. */
module Wrappers {

  /** Python's `Optional[T]`: `None` or a present value. */
  datatype Option<+T> = None | Some(value: T)

  /** A value, or the error a call raises instead of returning. */
  datatype Result<+T, +E> = Ok(value: T) | Err(error: E)
}
